=== FILE: README.md ===
# Include-dependency resolver

A Dafny model of `dependency.py`. This resolver finds every user header a C/C++ source file
pulls in, directly or through other headers. The model has three parts:

- **The line parsers.** `parseSystemHeaders` and `parseUserHeaders` collect what follows
  `#include <…>` and `#include "…"`. Each is modelled one line at a time: after the line's
  leading whitespace comes `#include `, then the opening delimiter, then the capture, which runs
  to the last closing delimiter on the line. A declarative description of such a line
  (`Includes.IsDirective`) is proved to agree with the computed capture
  (`Includes.LineCapture`). A parser then returns exactly the captures of the lines of its text.
- **The search-order resolver.** `searchIncludePath` looks in the current directory first,
  then in each listed directory in order, and otherwise gives `None`. The file system is an
  immutable value: a working directory plus a map from absolute paths to file contents.
  A path is an absolute flag with a sequence of segments.
  - `os.path.join` drops its left side when the right side is absolute. The recursive call
    depends on this, because it hands over an already resolved absolute path.
  - `os.path.abspath` joins onto the working directory.
- **The recursive closure.** `findUserHeaders` is modelled as written (`Closure`). `ignores`
  is an explicit in/out parameter. The outcome is a `Result` that is either `Ok(set)` or
  `Crash`. Children are picked with `:|`, as a Python set iterates in no fixed order.
  - The model proves that the outcome has a non-recursive closed form,
    `Closure.TwoLevelOutcome`. The call crashes when an unseen include did not resolve, or
    when an unseen include itself includes a file that is not yet ignored. Otherwise it
    returns the unseen includes.
  - A corrected version (`Reach`) skips unresolved includes and iterates a copy of the set. It
    is proved to return exactly the files reachable in the include graph without entering
    `ignores` or the file itself.
  - Where the as-written call does not crash on a top-level call, it is proved to agree with
    the corrected one.

`Examples` replays the repository's search-order and circular-include tests
(dependency.py:108-142) on concrete file systems, and adds three further cases: a
self-include, a two-step include chain and an unresolved include.

A file that includes itself reports nothing: it is added to `ignores` (dependency.py:60)
before ignored includes are dropped (dependency.py:66); see `Examples.SelfInclude`.

Files: `wrappers.dfy` (`Option`), `text.dfy` (whitespace, search, split and join),
`paths.dfy`, `includes.dfy`, `search.dfy`, `closure.dfy`, `reach.dfy` and `examples.dfy`.

## Model

| member | source | states |
|---|---|---|
| Paths.ParsePathString | dependency.py:27 | An include target is read as a path by splitting at `/`, and nothing is lost: every path with at least one segment, no `/` inside a segment and, when it is relative with more than one segment, a non-empty first segment is read back from the string it prints as. |
| Paths.PathStringParsePath | dependency.py:27 | In the other direction, every string reads as a path that prints back as that same string. So `ParsePath` is injective: distinct target strings are distinct relative or absolute paths before resolution. |
| Text.SplitJoin | dependency.py:16 | The text is cut into lines as the multiline pattern sees them: splitting text joined from line-feed-free lines gives back exactly those lines, so the line structure is unambiguous. |
| Includes.LineCaptureCorrect | dependency.py:16 | One line yields capture `h` exactly when it is leading whitespace, `#include` with a single space, the opening delimiter, `h`, and a closing delimiter that is the last one on the line (both directions). |
| Includes.Captures | dependency.py:9-11 | The collected set holds `h` exactly when some line captures `h`: duplicates collapse and nothing else enters. |
| Includes.ParseUserHeaders | dependency.py:15-20 | `h` is a user header of the text exactly when some line of the text reads `#include "h"` after leading whitespace, with `h` running to the last quote. |
| Includes.ParseSystemHeaders | dependency.py:7-12 | `h` is a system header exactly when some line reads `#include <h>` after leading whitespace, with `h` running to the last `>`. |
| Includes.DirectiveKindsExclusive | dependency.py:8-16 | No line matches both patterns, so a quoted include never reaches the system set and an angle-bracket include never reaches the user set. |
| Includes.SingleUserInclude | dependency.py:16-19 | A text whose one line is `#include "name"` has exactly `{name}` as its user headers, also when `name` holds a quote, since the capture runs to the last quote. |
| Search.SearchPaths | dependency.py:32-39 | The list is searched in order: `None` exactly when no listed directory holds the file; otherwise the absolute path in the first directory that holds it, which exists. |
| Search.SearchIncludePath | dependency.py:25-39 | The current directory wins whenever it holds the file, whatever the list holds. Otherwise the first listed directory holding it wins. The result is `None` exactly when no location holds the file, and any result is an existing absolute path. |
| Search.ResolvesToItself | dependency.py:27-29 | An existing absolute path, as the recursive call passes, resolves to itself whatever the current directory and list. |
| Search.RemoveOnlyHolder | dependency.py:32-39 | When the current directory lacks a file and exactly one listed directory holds it, the file resolves there, and dropping that directory from the list makes it unresolvable. |
| Closure.DirectIncludes | dependency.py:64-65 | Every include that resolves is an existing file with an absolute path. |
| Closure.TwoLevelFacts | dependency.py:45-73 | For the closed-form outcome: a file that does not resolve gives `Ok({})` and leaves `ignores` unchanged. On `Ok`, `ignores` only grows and gains the file's own path and every returned path. Every returned path is an existing file, none was ignored on entry, and none is the file itself. |
| Closure.ChildOutcome | dependency.py:82 | A child visited with `ignores` equal to the set after its parent's update returns `{}` and changes nothing when all its includes are ignored. Otherwise it crashes or returns a non-empty set disjoint from that `ignores`. |
| Closure.FindUserHeaders | dependency.py:43-85 | The as-written call always terminates, on cycles too, and its outcome is the closed form. A missing file gives `Ok({})` with `ignores` unchanged. On `Ok`, `ignores` grows to hold the file and every returned path, and every returned path is an existing file that was not ignored on entry and is not the file itself. |
| Closure.VisitIncludes | dependency.py:64-85 | Whichever order the children are visited in, the loop over the aliased set ends as the closed form says. It crashes when an unseen include did not resolve, because the recursive call joins `None` onto the directory. It also crashes when some unseen child still has an include outside `ignores`: that child returns a non-empty set, which grows the very set being iterated. Otherwise it returns the unseen includes, and on `Ok` it leaves `ignores` as the file's update made it. |
| Reach.FindUserHeadersCorrected | dependency.py:43-85 | With unresolved includes skipped and a copy iterated: a missing file gives `{}` with `ignores` unchanged. Otherwise the result is exactly the set of files reachable through includes without entering `ignores` or the file itself, and `ignores` grows by the file and the result. Every result is an existing absolute file. |
| Reach.AsWrittenOkIsReachable | dependency.py:43-85 | A top-level as-written call that does not crash returns only resolved paths, exactly those reachable from the file without returning to it, which is the corrected call's result. |
| Reach.OkIsReachable | dependency.py:79-85 | The loop of a top-level call that returns `Ok` returns exactly the files the resolved file reaches without coming back to it, and no `None`. |
| Examples.SearchPrefersCurrentDirectory | dependency.py:110-118 | `1.h`, held by the base directory and by `c`, `a` and `b`, resolves to the base directory's copy. |
| Examples.SearchPrefersFirstListed | dependency.py:120-124 | `2.h`, held by `c`, `a` and `b` but not the base directory, resolves to `c`'s copy, the first in list order. |
| Examples.SearchOnlyInLast | dependency.py:126-130 | `3.h`, held only by `b`, resolves to `b`'s copy. |
| Examples.SearchDroppedDirectory | dependency.py:132-136 | With `b` popped from the list, `3.h` resolves to `None`. |
| Examples.CircularIncludes | dependency.py:138-142 | With `a.h` and `b.h` including each other and no search list, the call terminates with exactly `{b.h}`. |
| Examples.SelfInclude | dependency.py:60-66 | A file that includes only itself reports nothing. |
| Examples.ChainCrashes | dependency.py:79-83 | As written, `a.h` → `b.h` → `c.h` crashes. |
| Examples.ChainCorrected | dependency.py:75-78 | Corrected, the same chain reports `{b.h, c.h}`, the closure the comment describes. |
| Examples.MissingCrashes | dependency.py:64-82 | As written, an include that resolves nowhere crashes. |
| Examples.MissingCorrected | dependency.py:47-49 | Corrected, an include that resolves nowhere is skipped silently, as a missing top-level file is. |

## Left out

- Command-line glue (`depcheck.py`, `deptime.py`): argument checks, exits, printing and the `;` split around one call to `findUserHeaders`.
- Timestamps: `os.path.getmtime`, `time.ctime` and the maximum over them in `deptime.py`. These are file-system metadata and floating-point time.
- File reading: `open`/`read` (dependency.py:52-54) is a map lookup. Open failures are not modelled, and neither are directories: `os.path.exists` is true for a directory, which `open` would then reject.
- Real `os.path` behaviour: no normalisation of `.`, `..` or repeated separators, no symbolic links and no other separators. `abspath` joins onto the working directory, which is assumed absolute, and an include target becomes a path by splitting on `/`. So spellings that `abspath` would merge, such as `./x.h` and `x.h`, stay distinct paths here. Resolution can still bring two targets to one file, as `x.h` and `/d/x.h` do from directory `/d`.
- Regular-expression generality: only the per-line behaviour of the two fixed patterns is modelled. `\s` is Python 2's byte-string class (space, tab, line feed, carriage return, form feed, vertical tab). Text is a sequence of characters, with no encodings.
- The mutable default `ignores=set()` (dependency.py:43), which is shared across top-level calls: `ignores` is passed explicitly, and a top-level call starts from `{}`.
- The unittest class (dependency.py:87-146) supplies the expected values of `Examples` only. The input file of `test_parsing`, `tests/test_parsing.cpp`, is not part of this model.
- Closure.FindUserHeaders: `Crash` does not say which exception is raised, and the `ignores` left behind after a crash is unspecified.

## Findings

| source | as written | input that shows it | evidently intended | confidence | as-written member | corrected member |
|---|---|---|---|---|---|---|
| dependency.py:64-82 | An include that resolves nowhere becomes `None` in `user_headers`. It survives `difference_update`, and the recursive call passes it to `os.path.join(cur_path, None)`, which raises. | `tests/circular/a.h` holding only `#include "missing.h"`, with no search list | An unresolved include is skipped silently, as a missing top-level file is (dependency.py:47-49) | high; not executed | Examples.MissingCrashes | Reach.FindUserHeadersCorrected |
| dependency.py:79-83 | `headers` is the same set as `user_headers`, so a child that returns anything grows the set the `for` loop iterates. CPython then raises `RuntimeError` (set changed size during iteration). The call crashes whenever an unseen include itself includes a file that is not yet ignored. | `a.h` includes `b.h`, which includes `c.h`, which includes nothing | `headers` is a copy, and the call returns the transitive closure the comment at dependency.py:75-78 describes | high; not executed | Examples.ChainCrashes | Reach.FindUserHeadersCorrected |

=== FILE: closure.dfy ===
/** `findUserHeaders` as written: the recursive closure over user includes, with the
    `ignores` set threaded through as an explicit in/out parameter. */
module Closure {
  import opened Wrappers
  import opened Paths
  import opened Includes
  import opened Search

  /** What a call ends in: the set it returns, or an exception. The two exceptions the model
      distinguishes from success are the one `os.path.join(cur_path, None)` raises when an include did not
      resolve (an `AttributeError` in Python 2), and CPython's `RuntimeError` when the set
      being iterated changes size. Which of the two comes first depends on set order, so
      they are not told apart. */
  datatype Result = Ok(headers: set<Option<Path>>) | Crash

  /** Every existing file, as the values `ignores` holds. */
  function Universe(fs: FileSystem): set<Option<Path>>
  {
    set p | p in fs.contents :: Some(p)
  }

  /** The resolved quoted includes of the existing file `file`: each target is searched for
      from the file's own directory, and one that does not resolve gives `None`. */
  function DirectIncludes(fs: FileSystem, file: Path, paths: seq<Path>): (r: set<Option<Path>>)
    requires file in fs.contents
    ensures forall o :: o in r && o.Some? ==> o.value in fs.contents && (fs.cwd.absolute ==> o.value.absolute)
  {
    set h | h in ParseUserHeaders(fs.contents[file]) :: SearchIncludePath(fs, ParsePath(h), Dirname(file), paths)
  }

  /** The unseen child `c`, visited with `ignores` equal to `after`, finds an include that is
      not yet ignored: its call then crashes or returns a non-empty set. */
  predicate Unfinished(fs: FileSystem, paths: seq<Path>, c: Option<Path>, after: set<Option<Path>>)
  {
    c.Some? && c.value in fs.contents && !(DirectIncludes(fs, c.value, paths) <= after)
  }

  /** The resolved includes of `file` that are not ignored once `file` itself is:
      `user_headers` after `difference_update(ignores)`. */
  function Unseen(fs: FileSystem, file: Path, paths: seq<Path>, ignores: set<Option<Path>>): set<Option<Path>>
    requires file in fs.contents
  {
    DirectIncludes(fs, file, paths) - (ignores + {Some(file)})
  }

  /** `ignores` once the file and its unseen includes are added, before any recursion. */
  function After(fs: FileSystem, file: Path, paths: seq<Path>, ignores: set<Option<Path>>): set<Option<Path>>
    requires file in fs.contents
  {
    ignores + {Some(file)} + Unseen(fs, file, paths, ignores)
  }

  /** The outcome for a file that was found, in closed form. A child that did not resolve
      makes the loop call `os.path.join` with `None`. A child whose own includes are not all
      ignored by then returns a non-empty set (or crashes), and adding that set to the set
      being iterated makes the iterator raise. Otherwise every child returns the empty set,
      and the result is the unseen includes alone. */
  function ChildrenOutcome(fs: FileSystem, file: Path, paths: seq<Path>, ignores: set<Option<Path>>)
    : (Result, set<Option<Path>>)
    requires file in fs.contents
  {
    var unseen := Unseen(fs, file, paths, ignores);
    var after := After(fs, file, paths, ignores);
    if None in unseen || exists c :: c in unseen && Unfinished(fs, paths, c, after) then (Crash, after)
    else (Ok(unseen), after)
  }

  /** The outcome of `findUserHeaders` as written, and the `ignores` it leaves behind on
      success: nothing for a file that does not resolve, else `ChildrenOutcome`. It is decided
      by the file's includes and theirs; nothing deeper matters. */
  function TwoLevelOutcome(fs: FileSystem, name: Path, cur: Path, paths: seq<Path>,
                           ignores: set<Option<Path>>): (Result, set<Option<Path>>)
  {
    match SearchIncludePath(fs, name, cur, paths)
    case None => (Ok({}), ignores)
    case Some(file) => ChildrenOutcome(fs, file, paths, ignores)
  }

  /** A proper shrink of the not-yet-ignored files. */
  lemma MeasureShrinks<T>(u: set<T>, before: set<T>, now: set<T>, c: T)
    requires before <= now && c in u && c !in before && c in now
    ensures |u - now| < |u - before|
  {
    assert u - now <= (u - before) - {c};
    assert |(u - before) - {c}| == |u - before| - 1;
    SubsetCard(u - now, (u - before) - {c});
  }

  lemma {:induction false} SubsetCard<T>(a: set<T>, b: set<T>)
    requires a <= b
    ensures |a| <= |b|
    decreases |b|
  {
    if a != {} {
      var x :| x in a;
      SubsetCard(a - {x}, b - {x});
    }
  }

  /** What the closed form promises: nothing for a missing file; on success `ignores` only
      grows, gains the file's own path and every returned path, and the returned paths are
      existing files, none of them ignored on entry and none the file itself. */
  lemma TwoLevelFacts(fs: FileSystem, name: Path, cur: Path, paths: seq<Path>, ignores: set<Option<Path>>)
    ensures var (r, ignores') := TwoLevelOutcome(fs, name, cur, paths, ignores);
      && (SearchIncludePath(fs, name, cur, paths).None? ==> r == Ok({}) && ignores' == ignores)
      && (r.Ok? ==> ignores <= ignores' && r.headers <= ignores' && r.headers !! ignores)
      && (r.Ok? ==> forall o :: o in r.headers ==> o.Some? && o.value in fs.contents)
      && (r.Ok? && SearchIncludePath(fs, name, cur, paths).Some? ==>
            var file := SearchIncludePath(fs, name, cur, paths).value;
            Some(file) in ignores' && Some(file) !in r.headers)
  {
  }

  /** A fresh child visited with `ignores` equal to `after`: if all its includes are already
      ignored it returns the empty set and leaves `ignores` alone; otherwise it crashes or
      returns a non-empty set disjoint from `after`. */
  lemma ChildOutcome(fs: FileSystem, paths: seq<Path>, c: Path, dir: Path, after: set<Option<Path>>)
    requires fs.cwd.absolute && c.absolute && c in fs.contents && Some(c) in after
    ensures var (r, ignores') := TwoLevelOutcome(fs, c, dir, paths, after);
      && (!Unfinished(fs, paths, Some(c), after) ==> r == Ok({}) && ignores' == after)
      && (Unfinished(fs, paths, Some(c), after) ==> r.Crash? || (r.headers != {} && r.headers !! after))
  {
    ResolvesToItself(fs, c, dir, paths);
    assert after + {Some(c)} == after;
  }

  /** Adding a non-empty set disjoint from a set changes its size. */
  lemma DisjointGrowth<T>(a: set<T>, b: set<T>)
    requires a !! b
    ensures |a + b| == |a| + |b|
  {
  }

  /** An unseen include that resolved is an existing absolute file, new to `ignores`
      and a member of `Universe(fs)`. */
  lemma ChildIsFileToVisit(fs: FileSystem, file: Path, paths: seq<Path>, ignores: set<Option<Path>>, c: Option<Path>)
    requires fs.cwd.absolute && file in fs.contents
    requires c in Unseen(fs, file, paths, ignores) && c.Some?
    ensures c.value in fs.contents && c.value.absolute
    ensures c !in ignores && c in After(fs, file, paths, ignores) && c in Universe(fs)
  {
    assert c == Some(c.value);
  }

  /** One unfinished unseen include makes the whole call crash. */
  lemma CrashOnUnfinished(fs: FileSystem, file: Path, paths: seq<Path>, ignores: set<Option<Path>>, c: Option<Path>)
    requires file in fs.contents
    requires c in Unseen(fs, file, paths, ignores)
    requires Unfinished(fs, paths, c, After(fs, file, paths, ignores))
    ensures ChildrenOutcome(fs, file, paths, ignores).0 == Crash
  {
  }

  /** An unseen include that did not resolve makes the whole call crash. */
  lemma CrashOnUnresolved(fs: FileSystem, file: Path, paths: seq<Path>, ignores: set<Option<Path>>)
    requires file in fs.contents
    requires None in Unseen(fs, file, paths, ignores)
    ensures ChildrenOutcome(fs, file, paths, ignores).0 == Crash
  {
  }

  /** When every unseen include resolved and finds all its own includes ignored, the call
      returns the unseen includes. */
  lemma OkWhenAllFinished(fs: FileSystem, file: Path, paths: seq<Path>, ignores: set<Option<Path>>)
    requires file in fs.contents
    requires forall c :: c in Unseen(fs, file, paths, ignores) ==>
      c.Some? && !Unfinished(fs, paths, c, After(fs, file, paths, ignores))
    ensures ChildrenOutcome(fs, file, paths, ignores) == (Ok(Unseen(fs, file, paths, ignores)), After(fs, file, paths, ignores))
  {
  }

  /** `findUserHeaders(name, cur, paths, ignores)`. */
  method FindUserHeaders(fs: FileSystem, name: Path, cur: Path, paths: seq<Path>, ignores: set<Option<Path>>)
    returns (r: Result, ignores': set<Option<Path>>)
    requires fs.cwd.absolute
    ensures r == TwoLevelOutcome(fs, name, cur, paths, ignores).0
    ensures r.Ok? ==> ignores' == TwoLevelOutcome(fs, name, cur, paths, ignores).1
    ensures SearchIncludePath(fs, name, cur, paths).None? ==> r == Ok({}) && ignores' == ignores
    ensures r.Ok? ==> ignores <= ignores' && r.headers <= ignores' && r.headers !! ignores
    ensures r.Ok? ==> forall o :: o in r.headers ==> o.Some? && o.value in fs.contents
    ensures r.Ok? && SearchIncludePath(fs, name, cur, paths).Some? ==>
      var file := SearchIncludePath(fs, name, cur, paths).value;
      Some(file) in ignores' && Some(file) !in r.headers
    decreases |Universe(fs) - ignores|, 1
  {
    TwoLevelFacts(fs, name, cur, paths, ignores);
    var found := SearchIncludePath(fs, name, cur, paths);
    if found.None? {
      return Ok({}), ignores;
    }
    var file := found.value;
    var source := fs.contents[file];
    var dir := Dirname(file);
    ignores' := ignores + {Some(file)};
    var userHeaders := (set h | h in ParseUserHeaders(source) :: SearchIncludePath(fs, ParsePath(h), dir, paths))
                       - ignores';
    assert userHeaders == Unseen(fs, file, paths, ignores);
    ignores' := ignores' + userHeaders;
    r, ignores' := VisitIncludes(fs, file, paths, ignores, userHeaders, ignores');
  }

  /** The loop over the unseen includes of `file` (`headers = user_headers` and the `for`
      over it), entered with `ignores` already holding the file and those includes. Children
      are visited in an arbitrary order, as a Python set iterates; the outcome does not depend
      on it. */
  method VisitIncludes(fs: FileSystem, file: Path, paths: seq<Path>, ghost ignores: set<Option<Path>>,
                       userHeaders: set<Option<Path>>, after: set<Option<Path>>)
    returns (r: Result, ignores': set<Option<Path>>)
    requires fs.cwd.absolute && file in fs.contents
    requires userHeaders == Unseen(fs, file, paths, ignores)
    requires after == After(fs, file, paths, ignores)
    ensures r == ChildrenOutcome(fs, file, paths, ignores).0
    ensures r.Ok? ==> ignores' == after
    decreases |Universe(fs) - ignores|, 0
  {
    var dir := Dirname(file);
    ignores' := after;
    // `headers = user_headers` aliases: the loop iterates the very set it adds to.
    var headers := userHeaders;
    var size := |headers|;
    var pending := headers;
    while pending != {}
      invariant pending <= userHeaders
      invariant headers == userHeaders && size == |userHeaders|
      invariant ignores' == after
      invariant forall c :: c in userHeaders - pending ==> c.Some? && !Unfinished(fs, paths, c, after)
      decreases pending
    {
      var header :| header in pending;
      pending := pending - {header};
      if header.None? {
        // The recursive call's `os.path.join(cur_path, None)` raises.
        CrashOnUnresolved(fs, file, paths, ignores);
        return Crash, ignores';
      }
      ChildIsFileToVisit(fs, file, paths, ignores, header);
      MeasureShrinks(Universe(fs), ignores, ignores', header);
      ChildOutcome(fs, paths, header.value, dir, after);
      var sub, subIgnores := FindUserHeaders(fs, header.value, dir, paths, ignores');
      if sub.Crash? {
        CrashOnUnfinished(fs, file, paths, ignores, header);
        return Crash, subIgnores;
      }
      ignores' := subIgnores;
      DisjointGrowth(headers, sub.headers);
      headers := headers + sub.headers;
      if |headers| != size {
        // The iterator's next step sees the changed size and raises.
        CrashOnUnfinished(fs, file, paths, ignores, header);
        return Crash, ignores';
      }
    }
    OkWhenAllFinished(fs, file, paths, ignores);
    r := Ok(headers);
  }
}

=== FILE: examples.dfy ===
/** Concrete file systems: the repository's search-order and circular-include test cases, a
    self-include, a two-step include chain and an unresolved include. The working directory
    is `/work` throughout. */
module Examples {
  import opened Wrappers
  import opened Text
  import opened Paths
  import opened Includes
  import opened Search
  import opened Closure
  import opened Reach

  const Cwd: Path := Path(true, ["work"])

  /** The text of a file whose one line is `#include "name"`. */
  function IncludeLine(name: string): string
  {
    Directive + [Quote] + name + [Quote] + "\n"
  }

  /** A target without `/` names one relative segment. */
  lemma OneSegment(name: string)
    requires |name| > 0 && '/' !in name
    ensures ParsePath(name) == Path(false, [name])
  {
    assert name[0] in name;
    SplitJoin([name], '/');
  }

  /** A file holding one include resolves to that include's search result only. */
  lemma SingleIncludeResolves(fs: FileSystem, file: Path, name: string, paths: seq<Path>)
    requires file in fs.contents && fs.contents[file] == IncludeLine(name)
    requires '\n' !in name
    ensures DirectIncludes(fs, file, paths) == {SearchIncludePath(fs, ParsePath(name), Dirname(file), paths)}
  {
    SingleUserInclude(name);
  }

  /** An empty file includes nothing. */
  lemma EmptyFileResolves(fs: FileSystem, file: Path, paths: seq<Path>)
    requires file in fs.contents && fs.contents[file] == ""
    ensures DirectIncludes(fs, file, paths) == {}
  {
    assert Lines("") == [""];
    assert LineCapture("", Quote, Quote) == None;
    LineCaptureAll("", Quote, Quote);
    assert ParseUserHeaders("") == {};
  }

  /** A name the current directory holds resolves there. */
  lemma ResolveHere(fs: FileSystem, dir: Path, name: Path, file: Path, paths: seq<Path>)
    requires AbsPath(fs, Join(dir, name)) == file && file in fs.contents
    ensures SearchIncludePath(fs, name, dir, paths) == Some(file)
  {
  }

  /** A file whose one include names a file beside it. */
  lemma IncludesSibling(fs: FileSystem, file: Path, name: string, target: Path, paths: seq<Path>)
    requires file in fs.contents && fs.contents[file] == IncludeLine(name)
    requires |name| > 0 && '/' !in name && '\n' !in name
    requires AbsPath(fs, Join(Dirname(file), Path(false, [name]))) == target && target in fs.contents
    ensures DirectIncludes(fs, file, paths) == {Some(target)}
  {
    OneSegment(name);
    ResolveHere(fs, Dirname(file), Path(false, [name]), target, paths);
    SingleIncludeResolves(fs, file, name, paths);
  }

  /** A file whose one include names nothing beside it, with no search list. */
  lemma IncludesMissing(fs: FileSystem, file: Path, name: string)
    requires file in fs.contents && fs.contents[file] == IncludeLine(name)
    requires |name| > 0 && '/' !in name && '\n' !in name
    requires AbsPath(fs, Join(Dirname(file), Path(false, [name]))) !in fs.contents
    ensures DirectIncludes(fs, file, []) == {None}
  {
    OneSegment(name);
    SingleIncludeResolves(fs, file, name, []);
  }

  /** In a list of three directories, only the last holds `name`. */
  lemma LastOfThree(fs: FileSystem, name: Path, paths: seq<Path>)
    requires |paths| == 3
    requires !Exists(fs, Join(paths[0], name)) && !Exists(fs, Join(paths[1], name))
    requires Exists(fs, Join(paths[2], name))
    ensures FirstHit(fs, name, paths, 2)
  {
  }

  /** In a list of three directories, the first holds `name`. */
  lemma FirstOfThree(fs: FileSystem, name: Path, paths: seq<Path>)
    requires |paths| == 3 && Exists(fs, Join(paths[0], name))
    ensures FirstHit(fs, name, paths, 0)
  {
  }

  /** A name in neither the current directory nor either of two listed ones is not found. */
  lemma NotInTwo(fs: FileSystem, name: Path, cur: Path, paths: seq<Path>)
    requires |paths| == 2 && !Exists(fs, Join(cur, name))
    requires !Exists(fs, Join(paths[0], name)) && !Exists(fs, Join(paths[1], name))
    ensures SearchIncludePath(fs, name, cur, paths).None?
  {
  }

  /** A name absent from the current directory and first held by the `k`-th listed one. */
  lemma FoundInListed(fs: FileSystem, name: Path, cur: Path, paths: seq<Path>, k: int)
    requires !Exists(fs, Join(cur, name)) && FirstHit(fs, name, paths, k)
    ensures SearchIncludePath(fs, name, cur, paths) == Some(AbsPath(fs, Join(paths[k], name)))
  {
  }

  /** A root with one include `child`, whose own includes are all already ignored once the
      root's are: the call as written returns `{child}`. */
  lemma OneChildOk(fs: FileSystem, name: Path, cur: Path, paths: seq<Path>, file: Path, child: Path)
    requires SearchIncludePath(fs, name, cur, paths) == Some(file) && file in fs.contents
    requires DirectIncludes(fs, file, paths) == {Some(child)} && child != file && child in fs.contents
    requires DirectIncludes(fs, child, paths) <= {Some(file), Some(child)}
    ensures TwoLevelOutcome(fs, name, cur, paths, {}).0 == Ok({Some(child)})
  {
    assert Unseen(fs, file, paths, {}) == {Some(child)};
    assert After(fs, file, paths, {}) == {Some(file), Some(child)};
    OkWhenAllFinished(fs, file, paths, {});
  }

  /** A root with one include `child`, which includes a third file: the call as written
      crashes. */
  lemma OneChildCrash(fs: FileSystem, name: Path, cur: Path, paths: seq<Path>, file: Path, child: Path, next: Path)
    requires SearchIncludePath(fs, name, cur, paths) == Some(file) && file in fs.contents
    requires DirectIncludes(fs, file, paths) == {Some(child)} && child != file && child in fs.contents
    requires Some(next) in DirectIncludes(fs, child, paths) && next != file && next != child
    ensures TwoLevelOutcome(fs, name, cur, paths, {}).0 == Crash
  {
    assert Unseen(fs, file, paths, {}) == {Some(child)};
    assert After(fs, file, paths, {}) == {Some(file), Some(child)};
    CrashOnUnfinished(fs, file, paths, {}, Some(child));
  }

  /** A root with an unresolved include: the call as written crashes. */
  lemma UnresolvedCrash(fs: FileSystem, name: Path, cur: Path, paths: seq<Path>, file: Path)
    requires SearchIncludePath(fs, name, cur, paths) == Some(file) && file in fs.contents
    requires None in DirectIncludes(fs, file, paths)
    ensures TwoLevelOutcome(fs, name, cur, paths, {}).0 == Crash
  {
    CrashOnUnresolved(fs, file, paths, {});
  }

  /** The graph edges of a file with known resolved includes. */
  lemma SingleEdge(fs: FileSystem, paths: seq<Path>, file: Path, target: Path)
    requires file in fs.contents && DirectIncludes(fs, file, paths) == {Some(target)}
    ensures IncludeGraph(fs, paths)[file] == {target}
  {
    assert Edges(fs, paths, file) == {target};
  }

  lemma NoEdge(fs: FileSystem, paths: seq<Path>, file: Path)
    requires file in fs.contents && DirectIncludes(fs, file, paths) <= {None}
    ensures IncludeGraph(fs, paths)[file] == {}
  {
    assert Edges(fs, paths, file) == {};
  }

  /** In a chain `a -> b -> c`, exploring from `a` finds exactly `b` and `c`. */
  lemma ChainExplored(g: Graph, a: Path, b: Path, c: Path, headers: set<Path>, ignores': set<Path>)
    requires a in g && b in g && c in g && g[a] == {b} && g[b] == {c} && g[c] == {}
    requires a != b && a != c
    requires Explored(g, a, {}, headers, ignores')
    ensures headers == {b, c}
  {
    EdgeReaches(g, a, b, {a});
    EdgeReaches(g, b, c, {a});
    PrependEdge(g, a, b, c, {a}, {a});
    forall q | q in headers
      ensures q == b || q == c
    {
      assert Reaches(g, a, q, {} + {a});
      assert {} + {a} == {a};
      ClosedContainsReachable(g, a, q, {a}, {a, b, c});
    }
  }

  /** A file with no edges explores to nothing. */
  lemma LeafExplored(g: Graph, a: Path, headers: set<Path>, ignores': set<Path>)
    requires a in g && g[a] == {}
    requires Explored(g, a, {}, headers, ignores')
    ensures headers == {}
  {
    forall q | q in headers
      ensures false
    {
      assert Reaches(g, a, q, {} + {a});
      assert {} + {a} == {a};
      ClosedContainsReachable(g, a, q, {a}, {a});
    }
  }

  // The search-order test case: `tests/search_include_paths` holds `1.h`; its
  // sub-directories `c`, `a` and `b` each hold `1.h` and `2.h`, and `b` alone holds `3.h`.

  const SearchDir: Path := Path(false, ["tests", "search_include_paths"])
  const SearchList: seq<Path> := [Path(false, SearchDir.segments + ["c"]),
                                  Path(false, SearchDir.segments + ["a"]),
                                  Path(false, SearchDir.segments + ["b"])]

  /** The absolute path of `file` under `tests/search_include_paths`, `sub` being a
      sub-directory or nothing. */
  function SearchFile(sub: seq<string>, file: string): Path
  {
    Path(true, Cwd.segments + SearchDir.segments + sub + [file])
  }

  /** Distinct sub-directories or names give distinct paths. */
  lemma SearchFileInjective(sub: seq<string>, file: string, sub': seq<string>, file': string)
    requires SearchFile(sub, file) == SearchFile(sub', file')
    ensures sub == sub' && file == file'
  {
    var p := Cwd.segments + SearchDir.segments;
    var s, s' := SearchFile(sub, file).segments, SearchFile(sub', file').segments;
    assert |sub| == |sub'|;
    assert file == s[|s| - 1] == s'[|s'| - 1] == file';
    assert sub == s[|p|..|s| - 1] == s'[|p|..|s'| - 1] == sub';
  }

  /** The (sub-directory, name) pairs the test directory holds. */
  const SearchEntries: set<(seq<string>, string)> :=
    {([], "1.h"), (["c"], "1.h"), (["a"], "1.h"), (["b"], "1.h"),
     (["c"], "2.h"), (["a"], "2.h"), (["b"], "2.h"), (["b"], "3.h")}

  const SearchFs: FileSystem :=
    FileSystem(Cwd, map e | e in SearchEntries :: SearchFile(e.0, e.1) := "")

  /** The test directory holds a file exactly when its pair is listed. */
  lemma SearchHolds(sub: seq<string>, file: string)
    ensures SearchFile(sub, file) in SearchFs.contents <==> (sub, file) in SearchEntries
  {
    if SearchFile(sub, file) in SearchFs.contents {
      var e :| e in SearchEntries && SearchFile(e.0, e.1) == SearchFile(sub, file);
      SearchFileInjective(e.0, e.1, sub, file);
    }
  }

  /** Where `name` would be found in each directory searched. */
  lemma SearchJoins(name: string)
    requires |name| > 0 && '/' !in name
    ensures ParsePath(name) == Path(false, [name])
    ensures AbsPath(SearchFs, Join(SearchDir, Path(false, [name]))) == SearchFile([], name)
    ensures AbsPath(SearchFs, Join(SearchList[0], Path(false, [name]))) == SearchFile(["c"], name)
    ensures AbsPath(SearchFs, Join(SearchList[1], Path(false, [name]))) == SearchFile(["a"], name)
    ensures AbsPath(SearchFs, Join(SearchList[2], Path(false, [name]))) == SearchFile(["b"], name)
  {
    OneSegment(name);
  }

  /** `1.h` is in the base directory and in every listed one: the base directory wins. */
  lemma SearchPrefersCurrentDirectory()
    ensures SearchIncludePath(SearchFs, ParsePath("1.h"), SearchDir, SearchList) == Some(SearchFile([], "1.h"))
  {
    SearchJoins("1.h");
    SearchHolds([], "1.h");
    ResolveHere(SearchFs, SearchDir, Path(false, ["1.h"]), SearchFile([], "1.h"), SearchList);
  }

  /** `2.h` is not in the base directory. */
  lemma TwoHeaderAbsent()
    ensures !Exists(SearchFs, Join(SearchDir, Path(false, ["2.h"])))
  {
    SearchJoins("2.h");
    assert "2.h"[0] != "1.h"[0];
    SearchHolds([], "2.h");
  }

  /** `c`, the first listed directory, holds `2.h`. */
  lemma TwoHeaderInC()
    ensures AbsPath(SearchFs, Join(SearchList[0], Path(false, ["2.h"]))) == SearchFile(["c"], "2.h")
    ensures Exists(SearchFs, Join(SearchList[0], Path(false, ["2.h"])))
  {
    SearchJoins("2.h");
    SearchHolds(["c"], "2.h");
  }

  /** `2.h` is in every listed directory but not the base one: the first listed wins. */
  lemma SearchPrefersFirstListed()
    ensures SearchIncludePath(SearchFs, ParsePath("2.h"), SearchDir, SearchList) == Some(SearchFile(["c"], "2.h"))
  {
    OneSegment("2.h");
    TwoHeaderAbsent();
    TwoHeaderInC();
    FirstOfThree(SearchFs, Path(false, ["2.h"]), SearchList);
    FoundInListed(SearchFs, Path(false, ["2.h"]), SearchDir, SearchList, 0);
  }

  /** Only `b` holds `3.h`. */
  lemma ThreeHeaderOnlyInB(sub: seq<string>)
    ensures (sub, "3.h") in SearchEntries <==> sub == ["b"]
  {
    assert "3.h"[0] != "1.h"[0] && "3.h"[0] != "2.h"[0];
  }

  /** `3.h` is neither in the base directory nor in `c` or `a`. */
  lemma ThreeHeaderAbsent()
    ensures !Exists(SearchFs, Join(SearchDir, Path(false, ["3.h"])))
    ensures !Exists(SearchFs, Join(SearchList[0], Path(false, ["3.h"])))
    ensures !Exists(SearchFs, Join(SearchList[1], Path(false, ["3.h"])))
  {
    SearchJoins("3.h");
    assert ["b"] != ["c"] by { assert "b"[0] != "c"[0]; }
    assert ["b"] != ["a"] by { assert "b"[0] != "a"[0]; }
    ThreeHeaderOnlyInB([]);
    ThreeHeaderOnlyInB(["c"]);
    ThreeHeaderOnlyInB(["a"]);
    SearchHolds([], "3.h");
    SearchHolds(["c"], "3.h");
    SearchHolds(["a"], "3.h");
  }

  /** `b` holds `3.h`. */
  lemma ThreeHeaderInB()
    ensures AbsPath(SearchFs, Join(SearchList[2], Path(false, ["3.h"]))) == SearchFile(["b"], "3.h")
    ensures Exists(SearchFs, Join(SearchList[2], Path(false, ["3.h"])))
  {
    SearchJoins("3.h");
    ThreeHeaderOnlyInB(["b"]);
    SearchHolds(["b"], "3.h");
  }

  /** `3.h` is only in `b`, the last listed directory, and is found there. */
  lemma SearchOnlyInLast()
    ensures SearchIncludePath(SearchFs, ParsePath("3.h"), SearchDir, SearchList) == Some(SearchFile(["b"], "3.h"))
  {
    OneSegment("3.h");
    ThreeHeaderAbsent();
    ThreeHeaderInB();
    LastOfThree(SearchFs, Path(false, ["3.h"]), SearchList);
    FoundInListed(SearchFs, Path(false, ["3.h"]), SearchDir, SearchList, 2);
  }

  /** With `b` dropped from the list, as the test's `paths.pop()` does, `3.h` is not found. */
  lemma SearchDroppedDirectory()
    ensures SearchIncludePath(SearchFs, ParsePath("3.h"), SearchDir, SearchList[..2]).None?
  {
    OneSegment("3.h");
    ThreeHeaderAbsent();
    var kept := SearchList[..2];
    assert kept[0] == SearchList[0] && kept[1] == SearchList[1] && |kept| == 2;
    NotInTwo(SearchFs, Path(false, ["3.h"]), SearchDir, kept);
  }

  // The circular test case: `tests/circular/a.h` and `b.h` include each other.

  const CircularDir: Path := Path(false, ["tests", "circular"])
  const CircularA: Path := Path(true, ["work", "tests", "circular", "a.h"])
  const CircularB: Path := Path(true, ["work", "tests", "circular", "b.h"])
  const CircularFs: FileSystem := FileSystem(Cwd, map[CircularA := IncludeLine("b.h"), CircularB := IncludeLine("a.h")])

  /** The root name `a.h` resolves in `tests/circular` of any file system holding it. */
  lemma RootResolves(fs: FileSystem)
    requires fs.cwd == Cwd && CircularA in fs.contents
    ensures SearchIncludePath(fs, ParsePath("a.h"), CircularDir, []) == Some(CircularA)
  {
    OneSegment("a.h");
    assert AbsPath(fs, Join(CircularDir, Path(false, ["a.h"]))) == CircularA;
    ResolveHere(fs, CircularDir, Path(false, ["a.h"]), CircularA, []);
  }

  /** Names of files beside one another in `tests/circular`. */
  lemma Siblings()
    ensures Join(Cwd, Join(Dirname(CircularA), Path(false, ["b.h"]))) == CircularB
    ensures Join(Cwd, Join(Dirname(CircularB), Path(false, ["a.h"]))) == CircularA
    ensures Join(Cwd, Join(Dirname(CircularA), Path(false, ["a.h"]))) == CircularA
    ensures Join(Cwd, Join(Dirname(CircularB), Path(false, ["c.h"]))) == ChainC
    ensures '/' !in "a.h" && '/' !in "b.h" && '/' !in "c.h"
    ensures '\n' !in "a.h" && '\n' !in "b.h" && '\n' !in "c.h"
  {
  }

  lemma CircularGraph()
    ensures DirectIncludes(CircularFs, CircularA, []) == {Some(CircularB)}
    ensures DirectIncludes(CircularFs, CircularB, []) == {Some(CircularA)}
  {
    Siblings();
    IncludesSibling(CircularFs, CircularA, "b.h", CircularB, []);
    IncludesSibling(CircularFs, CircularB, "a.h", CircularA, []);
  }

  /** `findUserHeaders('a.h', 'tests/circular', [])` terminates with exactly `b.h`. */
  method CircularIncludes() returns (r: Result)
    ensures r == Ok({Some(CircularB)})
  {
    RootResolves(CircularFs);
    CircularGraph();
    OneChildOk(CircularFs, ParsePath("a.h"), CircularDir, [], CircularA, CircularB);
    var ignores;
    r, ignores := FindUserHeaders(CircularFs, ParsePath("a.h"), CircularDir, [], {});
  }

  // A file that includes itself.

  const SelfFs: FileSystem := FileSystem(Cwd, map[CircularA := IncludeLine("a.h")])

  /** A self-include reports nothing: the file is ignored before its includes are read. */
  method SelfInclude() returns (r: Result)
    ensures r == Ok({})
  {
    RootResolves(SelfFs);
    Siblings();
    IncludesSibling(SelfFs, CircularA, "a.h", CircularA, []);
    assert Unseen(SelfFs, CircularA, [], {}) == {};
    var ignores;
    r, ignores := FindUserHeaders(SelfFs, ParsePath("a.h"), CircularDir, [], {});
  }

  // A chain: `a.h` includes `b.h`, which includes `c.h`, which includes nothing.

  const ChainC: Path := Path(true, ["work", "tests", "circular", "c.h"])
  const ChainFs: FileSystem :=
    FileSystem(Cwd, map[CircularA := IncludeLine("b.h"), CircularB := IncludeLine("c.h"), ChainC := ""])

  lemma ChainGraph()
    ensures DirectIncludes(ChainFs, CircularA, []) == {Some(CircularB)}
    ensures DirectIncludes(ChainFs, CircularB, []) == {Some(ChainC)}
    ensures DirectIncludes(ChainFs, ChainC, []) == {}
  {
    Siblings();
    IncludesSibling(ChainFs, CircularA, "b.h", CircularB, []);
    IncludesSibling(ChainFs, CircularB, "c.h", ChainC, []);
    EmptyFileResolves(ChainFs, ChainC, []);
  }

  /** As written, the chain crashes: `b.h` returns `{c.h}`, which is added to the set the
      loop over `a.h`'s includes is iterating. */
  method ChainCrashes() returns (r: Result)
    ensures r == Crash
  {
    RootResolves(ChainFs);
    ChainGraph();
    OneChildCrash(ChainFs, ParsePath("a.h"), CircularDir, [], CircularA, CircularB, ChainC);
    var ignores;
    r, ignores := FindUserHeaders(ChainFs, ParsePath("a.h"), CircularDir, [], {});
  }

  /** Corrected, the chain reports both headers. */
  method ChainCorrected() returns (headers: set<Path>)
    ensures headers == {CircularB, ChainC}
  {
    RootResolves(ChainFs);
    ChainGraph();
    SingleEdge(ChainFs, [], CircularA, CircularB);
    SingleEdge(ChainFs, [], CircularB, ChainC);
    NoEdge(ChainFs, [], ChainC);
    var ignores;
    headers, ignores := FindUserHeadersCorrected(ChainFs, ParsePath("a.h"), CircularDir, [], {});
    ChainExplored(IncludeGraph(ChainFs, []), CircularA, CircularB, ChainC, headers, ignores);
  }

  // A file whose one include resolves nowhere.

  const MissingFs: FileSystem := FileSystem(Cwd, map[CircularA := IncludeLine("missing.h")])

  lemma MissingGraph()
    ensures DirectIncludes(MissingFs, CircularA, []) == {None}
  {
    assert AbsPath(MissingFs, Join(Dirname(CircularA), Path(false, ["missing.h"])))
        == Path(true, ["work", "tests", "circular", "missing.h"]);
    IncludesMissing(MissingFs, CircularA, "missing.h");
  }

  /** As written, an unresolved include crashes: `None` reaches `os.path.join`. */
  method MissingCrashes() returns (r: Result)
    ensures r == Crash
  {
    RootResolves(MissingFs);
    MissingGraph();
    UnresolvedCrash(MissingFs, ParsePath("a.h"), CircularDir, [], CircularA);
    var ignores;
    r, ignores := FindUserHeaders(MissingFs, ParsePath("a.h"), CircularDir, [], {});
  }

  /** Corrected, an unresolved include is skipped. */
  method MissingCorrected() returns (headers: set<Path>)
    ensures headers == {}
  {
    RootResolves(MissingFs);
    MissingGraph();
    NoEdge(MissingFs, [], CircularA);
    var ignores;
    headers, ignores := FindUserHeadersCorrected(MissingFs, ParsePath("a.h"), CircularDir, [], {});
    LeafExplored(IncludeGraph(MissingFs, []), CircularA, headers, ignores);
  }
}

=== FILE: includes.dfy ===
/** The two include parsers, `parseSystemHeaders` and `parseUserHeaders`.

    Both patterns are `^\s*#include <open>(.*)<close>` in multiline mode. `^` matches at the
    start of the text and after every line feed, and `.` does not match a line feed, so a
    match lies within one line once its leading whitespace is skipped (whitespace-only lines
    before it change nothing captured). The greedy `(.*)` runs to the last closing delimiter
    on that line. The parsers are therefore modelled one line at a time. */
module Includes {
  import opened Wrappers
  import opened Text

  /** The text both patterns share: `#include` and exactly one space. */
  const Directive: string := "#include "

  /** The delimiters of a user include, `#include "x"`. */
  const Quote: char := '"'

  /** The delimiters of a system include, `#include <x>`. */
  const Angle: char := '<'
  const CloseAngle: char := '>'

  /** `line` is a directive capturing `h` with `w` characters of leading whitespace:
      the whitespace, `#include `, the opening delimiter, `h`, the closing delimiter,
      then text holding no closing delimiter. */
  ghost predicate DirectiveAt(line: string, open: char, close: char, h: string, w: nat)
  {
    var start := w + |Directive| + 1;
    var end := start + |h|;
    && end < |line|
    && AllSpace(line[..w])
    && line[w..start] == Directive + [open]
    && line[start..end] == h
    && line[end] == close
    && close !in line[end + 1..]
  }

  /** The pattern with the given delimiters matches `line` and captures `h`. */
  ghost predicate IsDirective(line: string, open: char, close: char, h: string)
  {
    exists w: nat :: DirectiveAt(line, open, close, h, w)
  }

  /** What the pattern captures from one line, if it matches. */
  function LineCapture(line: string, open: char, close: char): Option<string>
  {
    var rest := line[LeadingSpace(line)..];
    var prefix := Directive + [open];
    if |rest| < |prefix| || rest[..|prefix|] != prefix then None
    else match LastIndexOf(rest[|prefix|..], close)
      case None => None
      case Some(j) => Some(rest[|prefix|..][..j])
  }

  /** What `LineCapture` reads off a line it accepts: the prefix after the leading
      whitespace, and the capture ending at the last closing delimiter after it. */
  lemma CaptureParts(line: string, open: char, close: char, h: string)
    requires LineCapture(line, open, close) == Some(h)
    ensures var start := LeadingSpace(line) + |Directive| + 1;
      && start <= |line|
      && line[LeadingSpace(line)..start] == Directive + [open]
      && LastIndexOf(line[start..], close) == Some(|h|)
      && line[start..][..|h|] == h
  {
    var w := LeadingSpace(line);
    var prefix := Directive + [open];
    var start := w + |prefix|;
    assert line[w..][|prefix|..] == line[start..];
    assert line[w..][..|prefix|] == line[w..start];
  }

  /** Those parts make up the directive shape. */
  lemma ShapeFromParts(line: string, open: char, close: char, h: string, w: nat)
    requires w + |Directive| + 1 <= |line| && AllSpace(line[..w])
    requires line[w..w + |Directive| + 1] == Directive + [open]
    requires LastIndexOf(line[w + |Directive| + 1..], close) == Some(|h|)
    requires line[w + |Directive| + 1..][..|h|] == h
    ensures DirectiveAt(line, open, close, h, w)
  {
    var start := w + |Directive| + 1;
    var body := line[start..];
    assert line[start..start + |h|] == h;
    assert line[start + |h| + 1..] == body[|h| + 1..];
  }

  /** What `LineCapture` returns has the directive shape. */
  lemma LineCaptureSound(line: string, open: char, close: char, h: string)
    requires LineCapture(line, open, close) == Some(h)
    ensures DirectiveAt(line, open, close, h, LeadingSpace(line))
  {
    CaptureParts(line, open, close, h);
    ShapeFromParts(line, open, close, h, LeadingSpace(line));
  }

  /** The whitespace before a directive is all of the line's leading whitespace. */
  lemma DirectiveIndent(line: string, open: char, close: char, h: string, v: nat)
    requires DirectiveAt(line, open, close, h, v)
    ensures v == LeadingSpace(line)
    ensures line[v + |Directive|] == open
  {
    var w := LeadingSpace(line);
    assert line[v] == line[v..v + |Directive| + 1][0] == '#';
    assert line[v + |Directive|] == line[v..v + |Directive| + 1][|Directive|];
  }

  /** A line with the directive shape gives `LineCapture` its capture. */
  lemma LineCaptureComplete(line: string, open: char, close: char, h: string, w: nat)
    requires DirectiveAt(line, open, close, h, w)
    ensures LineCapture(line, open, close) == Some(h)
  {
    DirectiveIndent(line, open, close, h, w);
    var prefix := Directive + [open];
    var start := w + |prefix|;
    var body := line[start..];
    assert body[..|h|] == h;
    assert body[|h| + 1..] == line[start + |h| + 1..];
    LastIndexOfAt(body, close, |h|);
    assert line[w..][..|prefix|] == prefix;
    assert line[w..][|prefix|..] == body;
  }

  /** `LineCapture` finds exactly the captures the directive shape describes. */
  lemma LineCaptureCorrect(line: string, open: char, close: char, h: string)
    ensures LineCapture(line, open, close) == Some(h) <==> IsDirective(line, open, close, h)
  {
    if LineCapture(line, open, close) == Some(h) {
      LineCaptureSound(line, open, close, h);
    }
    if IsDirective(line, open, close, h) {
      var v: nat :| DirectiveAt(line, open, close, h, v);
      LineCaptureComplete(line, open, close, h, v);
    }
  }

  /** The captures of every line, for every `h`. */
  lemma LineCaptureAll(line: string, open: char, close: char)
    ensures forall h :: LineCapture(line, open, close) == Some(h) <==> IsDirective(line, open, close, h)
  {
    forall h {
      LineCaptureCorrect(line, open, close, h);
    }
  }

  /** The set of what one pattern captures from a sequence of lines. */
  function Captures(lines: seq<string>, open: char, close: char): (r: set<string>)
    ensures forall h :: h in r <==> exists i :: 0 <= i < |lines| && IsDirective(lines[i], open, close, h)
    decreases |lines|
  {
    if |lines| == 0 then {}
    else
      var rest := Captures(lines[1..], open, close);
      LineCaptureAll(lines[0], open, close);
      assert forall i :: 1 <= i < |lines| ==> lines[i] == lines[1..][i - 1];
      assert forall h, i :: 0 <= i < |lines| - 1 && IsDirective(lines[1..][i], open, close, h) ==>
        IsDirective(lines[i + 1], open, close, h);
      match LineCapture(lines[0], open, close)
      case None => rest
      case Some(h) => {h} + rest
  }

  /** The lines `^` starts, in multiline mode. */
  function Lines(source: string): seq<string>
  {
    Split(source, '\n')
  }

  /** `parseUserHeaders`: exactly the captures of the lines that read
      `<whitespace>#include "X"...`, duplicates collapsed. */
  function ParseUserHeaders(source: string): (r: set<string>)
    ensures forall h :: h in r <==>
      exists i :: 0 <= i < |Lines(source)| && IsDirective(Lines(source)[i], Quote, Quote, h)
  {
    Captures(Lines(source), Quote, Quote)
  }

  /** `parseSystemHeaders`: exactly the captures of the lines that read
      `<whitespace>#include <X>...`, duplicates collapsed. */
  function ParseSystemHeaders(source: string): (r: set<string>)
    ensures forall h :: h in r <==>
      exists i :: 0 <= i < |Lines(source)| && IsDirective(Lines(source)[i], Angle, CloseAngle, h)
  {
    Captures(Lines(source), Angle, CloseAngle)
  }

  /** No line is both a user and a system include, so a quoted line never feeds the
      system set and an angle-bracket line never feeds the user set. */
  lemma DirectiveKindsExclusive(line: string, h: string, g: string)
    ensures !(IsDirective(line, Quote, Quote, h) && IsDirective(line, Angle, CloseAngle, g))
  {
    if IsDirective(line, Quote, Quote, h) && IsDirective(line, Angle, CloseAngle, g) {
      var v: nat :| DirectiveAt(line, Quote, Quote, h, v);
      var u: nat :| DirectiveAt(line, Angle, CloseAngle, g, u);
      DirectiveIndent(line, Quote, Quote, h, v);
      DirectiveIndent(line, Angle, CloseAngle, g, u);
    }
  }

  /** A file whose only line is `#include "name"` includes just `name`, even when `name`
      holds a quote itself: the capture runs to the last quote on the line. */
  lemma SingleUserInclude(name: string)
    requires '\n' !in name
    ensures ParseUserHeaders(Directive + [Quote] + name + [Quote] + "\n") == {name}
  {
    var line := Directive + [Quote] + name + [Quote];
    var source := line + "\n";
    assert source == JoinWith([line, ""], '\n');
    assert '\n' !in Directive;
    assert '\n' !in line;
    SplitJoin([line, ""], '\n');
    assert Lines(source) == [line, ""];
    assert line[|Directive| + 1 + |name| + 1..] == [];
    assert DirectiveAt(line, Quote, Quote, name, 0);
    LineCaptureCorrect(line, Quote, Quote, name);
    forall h | h in ParseUserHeaders(source)
      ensures h == name
    {
      var i :| 0 <= i < 2 && IsDirective(Lines(source)[i], Quote, Quote, h);
      if i == 0 {
        LineCaptureCorrect(line, Quote, Quote, h);
      }
    }
  }
}

=== FILE: paths.dfy ===
/** The slice of `os.path` and of the file system that the resolver touches. */
module Paths {
  import opened Wrappers
  import opened Text

  /** A path as its `/`-separated segments; an absolute path starts at the root. */
  datatype Path = Path(absolute: bool, segments: seq<string>)

  /** `os.path.join(a, b)`: an absolute `b` discards `a`. */
  function Join(a: Path, b: Path): Path
  {
    if b.absolute then b else Path(a.absolute, a.segments + b.segments)
  }

  /** `os.path.dirname`: drops the last segment. */
  function Dirname(p: Path): Path
  {
    if |p.segments| == 0 then p else Path(p.absolute, p.segments[..|p.segments| - 1])
  }

  /** The path a string such as an include target names: a leading `/` makes it absolute,
      and the rest splits at every `/`. */
  function ParsePath(s: string): Path
  {
    if |s| > 0 && s[0] == '/' then Path(true, Split(s[1..], '/')) else Path(false, Split(s, '/'))
  }

  /** The string a path prints as. */
  function PathString(p: Path): string
  {
    (if p.absolute then "/" else "") + JoinWith(p.segments, '/')
  }

  /** A path that some string spells: at least one segment, no segment holding `/`, and a
      relative path does not start with an empty segment (that would print as absolute). */
  ghost predicate Spellable(p: Path) {
    && |p.segments| >= 1
    && (forall i :: 0 <= i < |p.segments| ==> '/' !in p.segments[i])
    && (!p.absolute ==> |p.segments| == 1 || p.segments[0] != "")
  }

  /** Reading a path back from its string gives the path: the segment model loses nothing. */
  lemma ParsePathString(p: Path)
    requires Spellable(p)
    ensures ParsePath(PathString(p)) == p
  {
    var body := JoinWith(p.segments, '/');
    SplitJoin(p.segments, '/');
    if p.absolute {
      assert PathString(p)[1..] == body;
    } else if |p.segments| > 1 {
      assert body == p.segments[0] + ['/'] + JoinWith(p.segments[1..], '/');
      assert p.segments[0] != "";
      assert body[0] == p.segments[0][0];
      assert body[0] in p.segments[0];
      assert PathString(p) == body;
    } else {
      assert body == p.segments[0];
      if |body| > 0 {
        assert body[0] in p.segments[0];
        assert body[0] != '/';
      }
      assert PathString(p) == body;
    }
  }

  /** Every string reads as a path that prints back as that string. */
  lemma PathStringParsePath(s: string)
    ensures PathString(ParsePath(s)) == s
  {
    if |s| > 0 && s[0] == '/' {
      assert s == "/" + s[1..];
    }
  }

  /** The file-system state the resolver reads: the working directory, against which
      `os.path.abspath` completes a relative path, and the contents of every existing file,
      keyed by absolute path. Directories are implied by the file paths. */
  datatype FileSystem = FileSystem(cwd: Path, contents: map<Path, string>)

  /** `os.path.abspath`, without the normalisation of `.` and `..`. */
  function AbsPath(fs: FileSystem, p: Path): Path
  {
    Join(fs.cwd, p)
  }

  /** `os.path.exists` for a file. */
  predicate Exists(fs: FileSystem, p: Path)
  {
    AbsPath(fs, p) in fs.contents
  }
}

=== FILE: reach.dfy ===
/** `findUserHeaders` as evidently intended: an unresolved include is skipped silently, and
    the loop iterates a copy of the unseen includes instead of the set it grows. This version
    computes the transitive closure of the include graph. */
module Reach {
  import opened Wrappers
  import opened Paths
  import opened Search
  import opened Closure

  /** A directed graph on files: each file's successors. */
  type Graph = map<Path, set<Path>>

  /** The resolved includes of an existing file. */
  function Edges(fs: FileSystem, paths: seq<Path>, file: Path): (r: set<Path>)
    requires file in fs.contents
    ensures forall q :: q in r ==> q in fs.contents && (fs.cwd.absolute ==> q.absolute)
  {
    set o | o in DirectIncludes(fs, file, paths) && o.Some? :: o.value
  }

  /** The include graph of the whole file system. */
  function IncludeGraph(fs: FileSystem, paths: seq<Path>): (g: Graph)
    ensures g.Keys == fs.contents.Keys
  {
    map file | file in fs.contents :: Edges(fs, paths, file)
  }

  /** `walk` follows edges of `g` from `from` to `to`, and every file on it after the first
      lies outside `avoid`. */
  ghost predicate Walk(g: Graph, walk: seq<Path>, from: Path, to: Path, avoid: set<Path>)
  {
    && |walk| >= 2
    && walk[0] == from
    && walk[|walk| - 1] == to
    && (forall k :: 0 <= k < |walk| - 1 ==> walk[k] in g && walk[k + 1] in g[walk[k]])
    && (forall k :: 1 <= k < |walk| ==> walk[k] !in avoid)
  }

  /** `to` is reachable from `from` over one or more edges without entering `avoid`. */
  ghost predicate Reaches(g: Graph, from: Path, to: Path, avoid: set<Path>)
  {
    exists walk :: Walk(g, walk, from, to, avoid)
  }

  /** Every file in `explored` is a node of `g` whose successors all lie in `target`. */
  ghost predicate ClosedUnder(g: Graph, explored: set<Path>, target: set<Path>)
  {
    forall n :: n in explored ==> n in g && g[n] <= target
  }

  /** Closure survives growing the target and joining explored sets. */
  lemma ClosedJoin(g: Graph, a: set<Path>, b: set<Path>, t: set<Path>, t': set<Path>)
    requires ClosedUnder(g, a, t) && ClosedUnder(g, b, t') && t <= t'
    ensures ClosedUnder(g, a + b, t')
  {
  }

  /** A successor outside `avoid` is reachable. */
  lemma EdgeReaches(g: Graph, from: Path, to: Path, avoid: set<Path>)
    requires from in g && to in g[from] && to !in avoid
    ensures Reaches(g, from, to, avoid)
  {
    assert Walk(g, [from, to], from, to, avoid);
  }

  /** An edge in front of a walk gives a walk. */
  lemma PrependEdge(g: Graph, from: Path, mid: Path, to: Path, avoid: set<Path>, inner: set<Path>)
    requires from in g && mid in g[from] && mid !in avoid
    requires avoid <= inner
    requires Reaches(g, mid, to, inner)
    ensures Reaches(g, from, to, avoid)
  {
    var walk :| Walk(g, walk, mid, to, inner);
    var longer := [from] + walk;
    assert forall k :: 1 <= k < |longer| ==> longer[k] == walk[k - 1];
    assert Walk(g, longer, from, to, avoid);
  }

  /** A walk that starts in a set closed under edges (outside `avoid`) stays in it. */
  lemma {:induction false} WalkStaysInside(g: Graph, walk: seq<Path>, from: Path, to: Path,
                                           avoid: set<Path>, inside: set<Path>, k: nat)
    requires Walk(g, walk, from, to, avoid)
    requires from in inside && ClosedUnder(g, inside, avoid + inside)
    requires k < |walk|
    ensures walk[k] in inside
    decreases k
  {
    if k > 0 {
      WalkStaysInside(g, walk, from, to, avoid, inside, k - 1);
      assert walk[k] in g[walk[k - 1]];
    }
  }

  /** A set closed under edges holds everything reachable from its members. */
  lemma ClosedContainsReachable(g: Graph, from: Path, to: Path, avoid: set<Path>, inside: set<Path>)
    requires from in inside && ClosedUnder(g, inside, avoid + inside)
    requires Reaches(g, from, to, avoid)
    ensures to in inside
  {
    var walk :| Walk(g, walk, from, to, avoid);
    WalkStaysInside(g, walk, from, to, avoid, inside, |walk| - 1);
  }

  /** What one corrected call achieves for the file `file` it resolved, entered with
      `ignores`: it ignores the file and what it returns, returns nothing ignored on entry nor
      the file, returns exactly what is reachable from the file without entering those, and
      leaves every returned file (and the file) with all its includes ignored. */
  ghost predicate Explored(g: Graph, file: Path, ignores: set<Path>, headers: set<Path>, ignores': set<Path>)
  {
    && ignores' == ignores + {file} + headers
    && headers !! ignores + {file}
    && (forall q :: q in headers <==> Reaches(g, file, q, ignores + {file}))
    && ClosedUnder(g, headers + {file}, ignores')
  }

  /** The state of the corrected loop over the includes of `file`: `avoid` is `ignores`
      with the file, `pending` the includes not yet visited. */
  ghost predicate Progress(g: Graph, file: Path, avoid: set<Path>, headers: set<Path>, pending: set<Path>,
                           ignores': set<Path>)
  {
    && file in avoid
    && pending <= headers
    && ignores' == avoid + headers
    && headers !! avoid
    && ClosedUnder(g, headers + {file} - pending, ignores')
    && (forall q :: q in headers ==> Reaches(g, file, q, avoid))
  }

  /** Before the loop: the new includes are pending and reachable by one edge. */
  lemma ProgressStart(g: Graph, file: Path, avoid: set<Path>, children: set<Path>)
    requires file in avoid && file in g && children == g[file] - avoid
    ensures Progress(g, file, avoid, children, children, avoid + children)
  {
    forall q | q in children
      ensures Reaches(g, file, q, avoid)
    {
      EdgeReaches(g, file, q, avoid);
    }
    assert children + {file} - children == {file};
  }

  /** One loop step: visiting a pending include, which explores it, keeps the loop state. */
  lemma ProgressStep(g: Graph, file: Path, avoid: set<Path>, headers: set<Path>, pending: set<Path>,
                     ignores': set<Path>, header: Path, found: set<Path>, more: set<Path>)
    requires Progress(g, file, avoid, headers, pending, ignores')
    requires file in g && pending <= g[file] && header in pending
    requires Explored(g, header, ignores', found, more)
    ensures Progress(g, file, avoid, headers + found, pending - {header}, more)
  {
    assert ignores' + {header} == ignores';
    forall q | q in found
      ensures Reaches(g, file, q, avoid)
    {
      PrependEdge(g, file, header, q, avoid, ignores');
    }
    ClosedJoin(g, headers + {file} - pending, found + {header}, ignores', more);
    assert headers + found + {file} - (pending - {header}) == (headers + {file} - pending) + (found + {header});
  }

  /** After the loop: nothing pending, so the call explored the file. */
  lemma ProgressFinish(g: Graph, file: Path, ignores: set<Path>, headers: set<Path>, ignores': set<Path>)
    requires Progress(g, file, ignores + {file}, headers, {}, ignores')
    ensures Explored(g, file, ignores, headers, ignores')
  {
    var avoid := ignores + {file};
    assert headers + {file} - {} == headers + {file};
    assert avoid + (headers + {file}) == ignores';
    forall q | Reaches(g, file, q, avoid)
      ensures q in headers
    {
      ClosedContainsReachable(g, file, q, avoid, headers + {file});
    }
  }

  /** `findUserHeaders` corrected. A file that does not resolve gives the empty set; one that
      resolves is `Explored`: the result is exactly what it reaches through includes without
      entering `ignores`. Every returned path is an existing absolute file. */
  method FindUserHeadersCorrected(fs: FileSystem, name: Path, cur: Path, paths: seq<Path>, ignores: set<Path>)
    returns (headers: set<Path>, ignores': set<Path>)
    requires fs.cwd.absolute
    ensures SearchIncludePath(fs, name, cur, paths).None? ==> headers == {} && ignores' == ignores
    ensures SearchIncludePath(fs, name, cur, paths).Some? ==>
      Explored(IncludeGraph(fs, paths), SearchIncludePath(fs, name, cur, paths).value, ignores, headers, ignores')
    ensures forall q :: q in headers ==> q in fs.contents && q.absolute
    decreases |fs.contents.Keys - ignores|
  {
    var found := SearchIncludePath(fs, name, cur, paths);
    if found.None? {
      return {}, ignores;
    }
    ghost var g := IncludeGraph(fs, paths);
    var file := found.value;
    var dir := Dirname(file);
    ignores' := ignores + {file};
    ghost var avoid := ignores';
    // `user_headers.discard(None)`: an include that did not resolve is skipped.
    var userHeaders := Edges(fs, paths, file) - ignores';
    assert g[file] == Edges(fs, paths, file);
    ignores' := ignores' + userHeaders;
    // `headers = set(user_headers)`: the loop iterates a copy.
    headers := userHeaders;
    var pending := userHeaders;
    ProgressStart(g, file, avoid, userHeaders);
    while pending != {}
      invariant pending <= userHeaders <= g[file]
      invariant Progress(g, file, avoid, headers, pending, ignores')
      invariant forall q :: q in headers ==> q in fs.contents && q.absolute
      decreases pending
    {
      var header :| header in pending;
      ResolvesToItself(fs, header, dir, paths);
      MeasureShrinks(fs.contents.Keys, ignores, ignores', header);
      var found, more := FindUserHeadersCorrected(fs, header, dir, paths, ignores');
      ProgressStep(g, file, avoid, headers, pending, ignores', header, found, more);
      pending := pending - {header};
      headers := headers + found;
      ignores' := more;
    }
    ProgressFinish(g, file, ignores, headers, ignores');
  }

  /** What an `Ok` from the loop of a top-level call says: every unseen include resolved,
      has all its own includes already ignored, and is returned. */
  lemma OkChildren(fs: FileSystem, file: Path, paths: seq<Path>)
    requires file in fs.contents && ChildrenOutcome(fs, file, paths, {}).0.Ok?
    ensures ChildrenOutcome(fs, file, paths, {}).0.headers == Unseen(fs, file, paths, {})
    ensures None !in DirectIncludes(fs, file, paths)
    ensures forall c :: c in Unseen(fs, file, paths, {}) ==>
      c.Some? && c.value in fs.contents && DirectIncludes(fs, c.value, paths) <= After(fs, file, paths, {})
  {
    assert None !in Unseen(fs, file, paths, {});
  }

  /** A file whose includes all lie in `allowed` has its graph edges in what `allowed` names. */
  lemma EdgesWithin(fs: FileSystem, paths: seq<Path>, n: Path, allowed: set<Option<Path>>, inside: set<Path>)
    requires n in fs.contents && DirectIncludes(fs, n, paths) <= allowed
    requires forall o :: o in allowed && o.Some? ==> o.value in inside
    ensures n in IncludeGraph(fs, paths) && IncludeGraph(fs, paths)[n] <= inside
  {
    assert IncludeGraph(fs, paths)[n] == Edges(fs, paths, n);
    forall q | q in Edges(fs, paths, n)
      ensures q in inside
    {
      assert Some(q) in DirectIncludes(fs, n, paths);
    }
  }

  /** The files returned, with the file itself, are closed under the include graph. */
  lemma OkClosed(fs: FileSystem, file: Path, paths: seq<Path>, inside: set<Path>)
    requires file in fs.contents
    requires forall c :: c in Unseen(fs, file, paths, {}) ==>
      c.Some? && c.value in fs.contents && DirectIncludes(fs, c.value, paths) <= After(fs, file, paths, {})
    requires inside == (set c | c in Unseen(fs, file, paths, {}) :: c.value) + {file}
    ensures ClosedUnder(IncludeGraph(fs, paths), inside, {file} + inside)
  {
    var unseen := Unseen(fs, file, paths, {});
    var after := After(fs, file, paths, {});
    assert after == {Some(file)} + unseen;
    forall o | o in after && o.Some?
      ensures o.value in inside
    {
      if o != Some(file) {
        assert o in unseen;
      }
    }
    forall n | n in inside
      ensures n in IncludeGraph(fs, paths) && IncludeGraph(fs, paths)[n] <= {file} + inside
    {
      if n == file {
        assert DirectIncludes(fs, file, paths) <= after;
        EdgesWithin(fs, paths, file, after, inside);
      } else {
        var c :| c in unseen && c.value == n;
        EdgesWithin(fs, paths, n, after, inside);
      }
    }
  }

  /** A resolved include is an edge of the graph. */
  lemma IncludeIsEdge(fs: FileSystem, paths: seq<Path>, n: Path, q: Path)
    requires n in fs.contents && Some(q) in DirectIncludes(fs, n, paths)
    ensures n in IncludeGraph(fs, paths) && q in IncludeGraph(fs, paths)[n]
  {
    assert IncludeGraph(fs, paths)[n] == Edges(fs, paths, n);
  }

  /** A reached file lies outside what the walk avoids. */
  lemma ReachedNotAvoided(g: Graph, from: Path, to: Path, avoid: set<Path>)
    requires Reaches(g, from, to, avoid)
    ensures to !in avoid
  {
    var walk :| Walk(g, walk, from, to, avoid);
    assert to == walk[|walk| - 1];
  }

  /** An unseen include is reached in one step. */
  lemma UnseenReached(fs: FileSystem, file: Path, paths: seq<Path>, q: Path)
    requires file in fs.contents && Some(q) in Unseen(fs, file, paths, {})
    ensures Reaches(IncludeGraph(fs, paths), file, q, {file})
  {
    assert q != file;
    IncludeIsEdge(fs, paths, file, q);
    EdgeReaches(IncludeGraph(fs, paths), file, q, {file});
  }

  /** When every unseen include of `file` resolved and has all its own includes among
      `file` and the unseen ones, the unseen includes are exactly what `file` reaches. */
  lemma UnseenIsReachable(fs: FileSystem, file: Path, paths: seq<Path>)
    requires file in fs.contents
    requires forall c :: c in Unseen(fs, file, paths, {}) ==>
      c.Some? && c.value in fs.contents && DirectIncludes(fs, c.value, paths) <= After(fs, file, paths, {})
    ensures forall q :: Some(q) in Unseen(fs, file, paths, {}) <==> Reaches(IncludeGraph(fs, paths), file, q, {file})
  {
    var g := IncludeGraph(fs, paths);
    var unseen := Unseen(fs, file, paths, {});
    var inside := (set c | c in unseen :: c.value) + {file};
    OkClosed(fs, file, paths, inside);
    forall q
      ensures Some(q) in unseen <==> Reaches(g, file, q, {file})
    {
      if Some(q) in unseen {
        UnseenReached(fs, file, paths, q);
      }
      if Reaches(g, file, q, {file}) {
        ClosedContainsReachable(g, file, q, {file}, inside);
        ReachedNotAvoided(g, file, q, {file});
        var c :| c in unseen && c.value == q;
      }
    }
  }

  /** The loop of a top-level call that returns `Ok` returns no `None`, and exactly what
      `file` reaches without coming back to it. */
  lemma OkIsReachable(fs: FileSystem, file: Path, paths: seq<Path>)
    requires file in fs.contents && ChildrenOutcome(fs, file, paths, {}).0.Ok?
    ensures var headers := ChildrenOutcome(fs, file, paths, {}).0.headers;
      && None !in headers
      && forall q :: Some(q) in headers <==> Reaches(IncludeGraph(fs, paths), file, q, {file})
  {
    OkChildren(fs, file, paths);
    UnseenIsReachable(fs, file, paths);
  }

  /** Where the as-written call does not crash, it is right: a top-level call (empty
      `ignores`) that returns `Ok` returns exactly the files the include graph reaches from
      the resolved file without coming back to it, which is what the corrected call returns. */
  lemma AsWrittenOkIsReachable(fs: FileSystem, name: Path, cur: Path, paths: seq<Path>)
    requires SearchIncludePath(fs, name, cur, paths).Some?
    requires TwoLevelOutcome(fs, name, cur, paths, {}).0.Ok?
    ensures var file := SearchIncludePath(fs, name, cur, paths).value;
      var headers := TwoLevelOutcome(fs, name, cur, paths, {}).0.headers;
      && None !in headers
      && forall q :: Some(q) in headers <==> Reaches(IncludeGraph(fs, paths), file, q, {file})
  {
    OkIsReachable(fs, SearchIncludePath(fs, name, cur, paths).value, paths);
  }
}

=== FILE: search.dfy ===
/** `searchIncludePath`: where an include target resolves to. */
module Search {
  import opened Wrappers
  import opened Paths

  /** Search directory `i` is the first in the list that holds `name`. */
  ghost predicate FirstHit(fs: FileSystem, name: Path, paths: seq<Path>, i: int)
  {
    && 0 <= i < |paths|
    && Exists(fs, Join(paths[i], name))
    && forall j :: 0 <= j < i ==> !Exists(fs, Join(paths[j], name))
  }

  /** The loop over the search list: the absolute path in the first directory holding `name`,
      or `None` when none does. */
  function SearchPaths(fs: FileSystem, name: Path, paths: seq<Path>): (r: Option<Path>)
    ensures r.None? <==> forall i :: 0 <= i < |paths| ==> !Exists(fs, Join(paths[i], name))
    ensures forall i :: FirstHit(fs, name, paths, i) ==> r == Some(AbsPath(fs, Join(paths[i], name)))
    ensures r.Some? ==> r.value in fs.contents
    ensures fs.cwd.absolute && r.Some? ==> r.value.absolute
    decreases |paths|
  {
    if |paths| == 0 then None
    else if Exists(fs, Join(paths[0], name)) then Some(AbsPath(fs, Join(paths[0], name)))
    else
      var r := SearchPaths(fs, name, paths[1..]);
      assert forall i :: 1 <= i < |paths| ==> paths[1..][i - 1] == paths[i];
      assert forall i :: FirstHit(fs, name, paths, i) ==> i >= 1 && FirstHit(fs, name, paths[1..], i - 1);
      r
  }

  /** `searchIncludePath(name, cur, paths)`: the current directory first, then the search
      list in order; `None` exactly when no location holds the file. A found path is the
      absolute path of an existing file. */
  function SearchIncludePath(fs: FileSystem, name: Path, cur: Path, paths: seq<Path>): (r: Option<Path>)
    ensures Exists(fs, Join(cur, name)) ==> r == Some(AbsPath(fs, Join(cur, name)))
    ensures !Exists(fs, Join(cur, name)) ==>
      forall i :: FirstHit(fs, name, paths, i) ==> r == Some(AbsPath(fs, Join(paths[i], name)))
    ensures r.None? <==>
      !Exists(fs, Join(cur, name)) && forall i :: 0 <= i < |paths| ==> !Exists(fs, Join(paths[i], name))
    ensures r.Some? ==> r.value in fs.contents
    ensures fs.cwd.absolute && r.Some? ==> r.value.absolute
  {
    var here := Join(cur, name);
    if Exists(fs, here) then Some(AbsPath(fs, here))
    else SearchPaths(fs, name, paths)
  }

  /** The recursive call hands over an already resolved path: an existing absolute path
      resolves to itself, whatever the current directory and search list. */
  lemma ResolvesToItself(fs: FileSystem, file: Path, cur: Path, paths: seq<Path>)
    requires file.absolute && file in fs.contents
    ensures SearchIncludePath(fs, file, cur, paths) == Some(file)
  {
  }

  /** Dropping the one search directory that holds a file (the current directory not holding
      it) turns its resolution from that directory's copy into `None`. */
  lemma RemoveOnlyHolder(fs: FileSystem, name: Path, cur: Path, paths: seq<Path>, k: int)
    requires 0 <= k < |paths|
    requires !Exists(fs, Join(cur, name))
    requires Exists(fs, Join(paths[k], name))
    requires forall j :: 0 <= j < |paths| && j != k ==> !Exists(fs, Join(paths[j], name))
    ensures SearchIncludePath(fs, name, cur, paths) == Some(AbsPath(fs, Join(paths[k], name)))
    ensures SearchIncludePath(fs, name, cur, paths[..k] + paths[k + 1..]).None?
  {
    assert FirstHit(fs, name, paths, k);
    var rest := paths[..k] + paths[k + 1..];
    forall i | 0 <= i < |rest|
      ensures !Exists(fs, Join(rest[i], name))
    {
      if i < k {
        assert rest[i] == paths[i];
      } else {
        assert rest[i] == paths[i + 1];
      }
    }
  }
}

=== FILE: text.dfy ===
/** Character and string helpers shared by the include parser and the path model. */
module Text {
  import opened Wrappers

  /** Python 2's `\s` class on byte strings: space, tab, line feed, carriage return,
      form feed and vertical tab. */
  predicate IsSpace(c: char) {
    c == ' ' || c == '\t' || c == '\n' || c == '\r' || c == '\U{000C}' || c == '\U{000B}'
  }

  ghost predicate AllSpace(s: string) {
    forall i :: 0 <= i < |s| ==> IsSpace(s[i])
  }

  /** The length of the longest all-whitespace prefix of `s`. */
  function LeadingSpace(s: string): (n: nat)
    ensures n <= |s| && AllSpace(s[..n])
    ensures n < |s| ==> !IsSpace(s[n])
  {
    if |s| > 0 && IsSpace(s[0]) then
      var n := 1 + LeadingSpace(s[1..]);
      assert forall i :: 1 <= i < n ==> s[..n][i] == s[1..][..n - 1][i - 1];
      n
    else 0
  }

  /** The position of the first `c` in `s`, if any. */
  function IndexOf(s: string, c: char): (r: Option<nat>)
    ensures r.None? <==> c !in s
    ensures r.Some? ==> r.value < |s| && s[r.value] == c && c !in s[..r.value]
  {
    if |s| == 0 then None
    else if s[0] == c then Some(0)
    else match IndexOf(s[1..], c)
      case None => None
      case Some(i) =>
        assert s[..i + 1] == [s[0]] + s[1..][..i];
        Some(i + 1)
  }

  /** The position of the last `c` in `s`, if any. */
  function LastIndexOf(s: string, c: char): (r: Option<nat>)
    ensures r.None? <==> c !in s
    ensures r.Some? ==> r.value < |s| && s[r.value] == c && c !in s[r.value + 1..]
  {
    if |s| == 0 then None
    else if s[|s| - 1] == c then Some(|s| - 1)
    else
      var r := LastIndexOf(s[..|s| - 1], c);
      assert s == s[..|s| - 1] + [s[|s| - 1]];
      match r
      case None => None
      case Some(j) =>
        assert s[j + 1..] == s[..|s| - 1][j + 1..] + [s[|s| - 1]];
        Some(j)
  }

  /** A position holding the first `c` is the one `IndexOf` finds. */
  lemma IndexOfAt(s: string, c: char, i: nat)
    requires i < |s| && s[i] == c && c !in s[..i]
    ensures IndexOf(s, c) == Some(i)
  {
    assert s[i] in s;
  }

  /** A position holding the last `c` is the one `LastIndexOf` finds. */
  lemma LastIndexOfAt(s: string, c: char, i: nat)
    requires i < |s| && s[i] == c && c !in s[i + 1..]
    ensures LastIndexOf(s, c) == Some(i)
  {
    assert s[i] in s;
  }

  /** Python's `sep.join(parts)`. */
  function JoinWith(parts: seq<string>, sep: char): string
  {
    if |parts| == 0 then ""
    else if |parts| == 1 then parts[0]
    else parts[0] + [sep] + JoinWith(parts[1..], sep)
  }

  /** Python's `s.split(sep)`: at least one part, no part holds the separator,
      and joining the parts back with the separator gives `s`. */
  function Split(s: string, sep: char): (parts: seq<string>)
    ensures |parts| >= 1
    ensures forall i :: 0 <= i < |parts| ==> sep !in parts[i]
    ensures JoinWith(parts, sep) == s
    decreases |s|
  {
    match IndexOf(s, sep)
    case None => [s]
    case Some(i) =>
      var rest := Split(s[i + 1..], sep);
      var parts := [s[..i]] + rest;
      assert parts[1..] == rest;
      assert s == s[..i] + [sep] + s[i + 1..];
      parts
  }

  /** Splitting text that starts with a separator-free part and a separator. */
  lemma SplitCons(first: string, rest: string, sep: char)
    requires sep !in first
    ensures Split(first + [sep] + rest, sep) == [first] + Split(rest, sep)
  {
    var s := first + [sep] + rest;
    var n := |first|;
    assert s[..n] == first;
    IndexOfAt(s, sep, n);
    assert s[n + 1..] == rest;
  }

  /** Splitting is the inverse of joining parts that do not hold the separator,
      so `Split`'s contract determines its result. */
  lemma {:induction false} SplitJoin(parts: seq<string>, sep: char)
    requires |parts| >= 1
    requires forall i :: 0 <= i < |parts| ==> sep !in parts[i]
    ensures Split(JoinWith(parts, sep), sep) == parts
    decreases |parts|
  {
    if |parts| == 1 {
      assert IndexOf(parts[0], sep).None?;
    } else {
      SplitCons(parts[0], JoinWith(parts[1..], sep), sep);
      SplitJoin(parts[1..], sep);
      assert parts == [parts[0]] + parts[1..];
    }
  }
}

=== FILE: wrappers.dfy ===
/** Python's "a value or `None`". */
module Wrappers {

  datatype Option<+T> = None | Some(value: T)
}
